=== FILE: README.md ===
# Fogbus bootstrap registry, reconciliation tick and node lifecycle in Dafny

This project models the membership core of a tiered (IoT / fog / cloud)
peer-to-peer node:

- **The ledger-side registry** (`Chaincode`). It is a world state from
  string keys to records. Node and application records are upserted under
  their IDs. The key `BootstrapPeersList` holds the ordered list of
  bootstrap addresses. Registration adds fog and cloud addresses to that
  list with set-union semantics. Removal deletes the first exact match.
- **The reconciliation tick** `UpdateBootstrapPeers` (`Discovery`). It
  fetches the list and probes each address: multiaddr parse, peer-ID
  extraction, connect. Then it bootstraps the Kademlia table once. Only if
  that bootstrap succeeds does it issue one ledger removal per unreachable
  entry. `Reconciliation` composes the tick with the chaincode, to state
  what the ledger holds after a tick.
- **The node supervisor** (`Node`). It covers tier-dependent construction
  (mDNS unless cloud, table unless IoT), the `Start` and `Stop` step
  sequences with their early exits and panics, and the update loop that
  runs one tick at a time until cancelled.
- **Configuration** (`Config`, `Text`). It holds the tier names, the flag
  defaults, and the comma split of the bootstrap flag, which is Go's
  `strings.Split` with its inverse `Join`.

Foreign calls are not executed. This covers the libp2p host, the multiaddr
parser, Kademlia, the Fabric gateway, key generation and mDNS. Each one is
represented by its outcome: a boolean, an `Option` fetch result, or a
predicate of the `Discovery.Network`. `Start`, `Stop` and the tick return the
ordered list of the external calls they made, plus how they ended. A Go
panic is its own exit, `Panicked`.

The chaincode follows Fabric's transaction semantics. A read returns the
state committed before the transaction, never a write made earlier in the
same transaction. Of two writes to one key, the later one is committed. A
transaction that returns an error commits nothing.

The system's documentation describes some behaviour the code does not
have. Where the two disagree, the model follows the code:

- **IoT `Start`.** The documentation says `Start` skips absent adapters, and
  that an IoT node registers without joining the list. In the code, `Start` calls the
  table with no nil check. `(*DHT).Start` never touches its receiver, so it
  returns nil. `(*DHT).Bootstrap` dereferences the nil table and panics. So an
  IoT node panics before it registers (`Node.IotNodePanics`).
- **IoT `Stop`.** `Stop` also panics for an IoT node, at the table stop.
- **`Stop` early exit.** The documentation calls every `Stop` step
  best-effort. In
  the code, an error from the table stop returns at once, which skips the
  self-removal and the host close.
- **Sequential probing.** The documentation recommends probing
  concurrently. The code
  probes one address after another, and so does the model.
- **Self-registered addresses and the tick.** A fog or cloud node
  registers `host.Addrs()[0]` (node.go:113). libp2p reports listen
  addresses without a `/p2p/<peer ID>` component, and the tick's
  `AddrInfoFromP2pAddr` (dht.go:64) rejects an address without one. Under
  that reading of libp2p, which the model does not contain, every
  self-registered address fails the probe at the peer-ID step, and the first
  successful tick empties the list (`Reconciliation.TickWithoutPeerIdsEmptiesList`).

## Model

| member | source | states |
|---|---|---|
| Config.ParseFlags | pkg/config/config.go:23-41 | The type flag is taken verbatim and defaults to "fog". Listen defaults to /ip4/0.0.0.0/tcp/0 and fabric-config to config.yaml. The bootstrap list is empty iff the flag text is empty. Otherwise it has one piece per comma plus one, and no piece holds a comma. |
| Config.BootstrapListRestoresFlag | pkg/config/config.go:37-39 | Joining the parsed bootstrap pieces with commas gives back the flag text, so nothing is trimmed or dropped. |
| Config.BootstrapFlagRestoresList | pkg/config/config.go:37-39 | A non-empty list of comma-free addresses, other than the single empty address, given joined by commas, parses back to exactly that list, empty addresses included. |
| Text.Split | pkg/config/config.go:38 | The piece count is the separator count plus one, and no piece contains the separator. |
| Text.JoinSplit | pkg/config/config.go:38 | Join after Split is the identity on strings. |
| Text.SplitJoin | pkg/config/config.go:38 | Split after Join is the identity on non-empty lists of separator-free pieces. |
| Chaincode.GetBootstrapPeers | pkg/blockchain/chaincode/chaincode.go:69-84 | A never-written key reads as the empty list. A stored list reads back exactly. The read fails iff the key holds something other than a list. |
| Chaincode.AddBootstrapPeer | pkg/blockchain/chaincode/chaincode.go:86-106 | The list is read from the committed state, and the write is staged over the transaction's earlier writes. A present address stages nothing. A new one is appended at the end of the committed list. When nothing else touched the list, the address is listed afterwards and a duplicate-free list stays duplicate-free. Other keys keep their staged values. It fails iff the committed list is unreadable. |
| Chaincode.RemoveFirst | pkg/blockchain/chaincode/chaincode.go:114-119 | A list without the address comes back unchanged. Otherwise it comes back one shorter. |
| Chaincode.RemoveFirstCutsFirstMatch | pkg/blockchain/chaincode/chaincode.go:114-119 | Exactly the entry at the first match is cut out. The entries before and after it keep their order. |
| Chaincode.RemoveFirstMultiset | pkg/blockchain/chaincode/chaincode.go:114-119 | One copy of the address is taken away when there is one, and nothing else. |
| Chaincode.RemoveFirstAfterAppend | pkg/blockchain/chaincode/chaincode.go:114-119 | For an address not in L, removing it from L with the address appended gives back L. |
| Chaincode.RemoveFirstKeepsNoDuplicates | pkg/blockchain/chaincode/chaincode.go:114-119 | Removal keeps a duplicate-free list duplicate-free. |
| Chaincode.RemoveBootstrapPeer | pkg/blockchain/chaincode/chaincode.go:108-127 | The stored list becomes the old list minus its first match. An absent address is not an error and changes no readable list, and when the key exists the state is identical. Other keys are untouched. It fails iff the list is unreadable. |
| Chaincode.RegisterNode | pkg/blockchain/chaincode/chaincode.go:29-52 | It fails iff the type is exactly "fog" or "cloud" and the committed list is unreadable. No key other than the ID and the list key changes. The record is stored under its ID, unless that ID is the list key and a new address's list write replaces it. For fog and cloud, a new address is appended to the committed list. When the ID is not the list key, a listed address leaves the list unchanged, as does any other type. |
| Chaincode.DeployApplication | pkg/blockchain/chaincode/chaincode.go:54-67 | Only the application's ID key is written. The list is unchanged iff that ID differs from the list key; otherwise the list becomes unreadable. |
| Chaincode.RegisterNodeIdempotent | pkg/blockchain/chaincode/chaincode.go:29-52 | For an ID other than the list key, registering the same record a second time leaves the world state as the first registration left it. |
| Chaincode.RegisterNodeKeepsNoDuplicates | pkg/blockchain/chaincode/chaincode.go:29-52 | For an ID other than the list key, registration succeeds on a readable list and keeps it duplicate-free. |
| Chaincode.AddThenRemoveRestoresList | pkg/blockchain/chaincode/chaincode.go:86-127 | Adding an unlisted address and then removing it restores the list. |
| Chaincode.TwoFogNodesThenRestart | pkg/blockchain/chaincode/chaincode.go:29-52 | Two fog nodes with distinct addresses registering into an empty ledger give the list [a, b]. Re-registering the first leaves it [a, b]. |
| Chaincode.RecordUnderBootstrapKey | pkg/blockchain/chaincode/chaincode.go:41-48 | A fog or cloud record whose ID is the list key still registers. With a new address, the list write replaces the staged record and the list gains the address. With a listed address, the record stays under the key and the list becomes unreadable. |
| Chaincode.AppUnderBootstrapKeyBreaksRegistry | pkg/blockchain/chaincode/chaincode.go:66-79 | An application stored under the list key makes every later fog or cloud registration and every removal fail. |
| Discovery.NewDht | pkg/discovery/dht.go:19-35 | The table is in server mode iff the configured bootstrap list is empty. Construction fails iff the library constructor fails. |
| Discovery.ProbeLoop | pkg/discovery/dht.go:57-76 | After n iterations the two lists hold n entries between them, and at most n connect calls were made. |
| Discovery.ProbeLoopOnlyDials | pkg/discovery/dht.go:57-76 | The probe loop makes connect calls and no other external call. |
| Discovery.ProbeAll | pkg/discovery/dht.go:57-76 | The imperative probe loop computes the lists and connect calls that the reference ProbeLoop describes for the whole fetched list. |
| Discovery.RemoveAll | pkg/discovery/dht.go:82-88 | The imperative removal loop issues one removal per unreachable entry, in order, whatever each removal's outcome. |
| Discovery.ProbeLoopPartition | pkg/discovery/dht.go:57-76 | The fetched entries are the reachable entries plus the unreachable entries, with multiplicity. |
| Discovery.UnreachableMeansProbeFailed | pkg/discovery/dht.go:57-76 | An address is unreachable iff some copy failed multiaddr parsing, carried no peer ID, or failed to connect. |
| Discovery.ReachableMeansConnected | pkg/discovery/dht.go:57-76 | An address is reachable iff some copy parsed, had a peer ID and connected. |
| Discovery.DialsAreWellFormedEntries | pkg/discovery/dht.go:57-76 | A connect call is made for an address iff some copy of it parses and carries a peer ID. Malformed entries are never dialled. |
| Discovery.Reconcile | pkg/discovery/dht.go:49-91 | A fetch error returns an error after the fetch alone: no connect, no bootstrap, no removal. Otherwise every entry is classified. The tick returns the bootstrap error iff the fetch succeeded and the bootstrap failed, and returns nil otherwise. The first call is always the fetch. |
| Discovery.UpdateBootstrapPeers | pkg/discovery/dht.go:49-91 | The imperative tick (fetch, probe loop, one bootstrap, removal loop) computes exactly the tick that Reconcile describes, on every input. |
| Discovery.RemovalsMatchUnreachable | pkg/discovery/dht.go:78-88 | Removal calls go to exactly the unreachable entries, duplicates included, in fetch order. There are none after a fetch or bootstrap failure. |
| Discovery.RemovalOutcomesDoNotMatter | pkg/discovery/dht.go:82-90 | A failed removal does not stop later removals and does not change the return value. |
| Discovery.BootstrapOnceBetweenProbesAndRemovals | pkg/discovery/dht.go:57-88 | After a successful fetch there is exactly one bootstrap call, even for an empty list. It comes after every connect call and before every removal call, and it is the last call when it fails. |
| Reconciliation.ApplyRemovalsOnList | pkg/blockchain/chaincode/chaincode.go:108-127 | Removals applied one by one to a readable ledger act on the list alone, as successive first-match deletions. |
| Reconciliation.RemoveEachMultiset | pkg/blockchain/chaincode/chaincode.go:114-119 | Successive first-match deletions take away exactly the deleted addresses, with multiplicity. |
| Reconciliation.RemoveDeadLeavesLive | pkg/blockchain/chaincode/chaincode.go:114-119 | Deleting a list's dead entries, one first match at a time, leaves its live entries in their original order. |
| Reconciliation.TickPrunesToReachable | pkg/discovery/dht.go:82-88 | With no other writer, all removals applied, and probes that depend only on the address, the list after a successful tick is the fetched list filtered to its reachable entries. |
| Reconciliation.TickPrunesDuplicateFreeToReachable | pkg/discovery/dht.go:82-88 | On a duplicate-free list (the form registration keeps), the list after a successful tick is exactly the entries that connected, in stored order, with no hypothesis on the probes. |
| Reconciliation.TickWithoutPeerIdsEmptiesList | pkg/discovery/dht.go:64-69 | When no stored address carries a peer ID, every probe fails at the peer-ID step and a successful tick leaves the list empty. |
| Reconciliation.TickPrunesToReachableMultiset | pkg/discovery/dht.go:82-88 | Under any probes, the list after a successful tick holds the reachable entries with their multiplicities. |
| Reconciliation.FailedTickLeavesLedger | pkg/discovery/dht.go:50-80 | A tick whose fetch or bootstrap failed leaves the ledger unchanged. |
| Reconciliation.FlakyDuplicateReorders | pkg/discovery/dht.go:57-88 | Take the list a, b, a where only the second a fails to connect. The tick's reachable list is a, b, but the ledger is left with b, a. |
| Node.NewNode | pkg/node/node.go:25-80 | Construction succeeds iff key generation, the listen address, the host, the table (when built) and the ledger setup all succeed. mDNS exists iff the type is not "cloud". The table exists iff the type is not "iot", and it is in server mode iff no bootstrap peers are configured. |
| Node.CapabilityMatrix | pkg/node/node.go:51-65 | For iot, fog and cloud, construction matches the tier table: which adapters exist and whether the node joins the list. Any other type string gets both adapters and does not join. |
| Node.DefaultFlagsGiveFogAnchor | pkg/config/config.go:26-29 | Default flags give a fog node with both adapters and a server-mode table. |
| Node.Start | pkg/node/node.go:94-124 | When the host reports an address, the calls are a prefix of: table start, table bootstrap, mDNS start (if present), registration, loop launch. The first failure returns at once: a failed bootstrap ends the run right after the bootstrap call, a failed mDNS start right after the mDNS start call (neither registers), and a failed registration returns its error after the registration call, before the loop. The loop is launched iff every step succeeded. The registered record is (host ID, type string, first address the host reports at Start). A node without a table panics at the bootstrap, before registering; a host with no address panics right after the table and mDNS starts, before any registration. |
| Node.Stop | pkg/node/node.go:126-144 | The calls are a prefix of: mDNS stop (if present), table stop, self-removal (fog or cloud only), host close. A node without a table panics at the table stop; a table-stop error returns right after that call, before the self-removal and the host close. A fog or cloud node whose host reports no address panics right after the table stop. A host-close error is the result once the earlier steps passed. There is exactly one self-removal, of the first address the host reports at Stop, iff the table stopped and the type is fog or cloud; its outcome is ignored. |
| Node.StopIgnoresRemovalOutcome | pkg/node/node.go:136-141 | A failed self-removal does not change how Stop ends. |
| Node.IotNodePanics | pkg/node/node.go:94-133 | A constructed IoT node panics in Start before registering, and panics in Stop before any self-removal. |
| Node.FreshNodeJoinsEmptyRegistry | pkg/node/node.go:109-118 | A fog or cloud node started against an empty ledger registers itself, and the list becomes the first address reported at Start, alone. |
| Node.StartThenStopRestoresList | pkg/node/node.go:109-141 | Take a fog or cloud node whose address is unlisted, and whose host reports the same first address at Stop as at Start. Starting it, then stopping it with no other writer in between, restores the list. |
| Node.AddressChangeLeavesStaleEntry | pkg/node/node.go:109-141 | If the host's first address changed between Start and Stop, the address registered at Start stays listed after the self-removal. |
| Node.StopAndRegisterAgreeOnTiers | pkg/node/node.go:136 | The node removes itself on Stop for exactly the types the chaincode adds on registration. |
| Node.UpdateLoop | pkg/node/node.go:146-162 | Ticks run one after another, one full reconciliation each, up to the first cancellation. A tick's error does not stop the loop. |
| Node.CancellationEndsLoop | pkg/node/node.go:150-154 | Signals after a cancellation have no effect. |

## Left out

- Fabric SDK setup, wallet, CA enrolment and configuration loading
  (`pkg/blockchain/setup.go`): foreign calls and file I/O. Construction
  sees only whether setup succeeded.
- The gateway client (`pkg/blockchain/fabric_client.go`): its calls appear
  only as fallible outcomes. The ignored `getContract` errors fall under
  "may fail". A client-side error is not linked to any ledger state,
  because a failed submit may or may not have committed.
- mDNS discovery (`pkg/discovery/mdns.go`): an asynchronous network
  callback with a 10-second connect timeout. Only the existence of the
  service and its start and stop calls are modelled.
- Process entry, signal handling and exit codes (`cmd/node/main.go`).
- The Sawtooth dependency-management client
  (`manage-dependency-workflow/dependency-management-client/dependency_management_client.py`):
  transaction building, signing and a validator stream, outside this core.
- JSON encoding of records and of the list: assumed to round-trip. World
  state values are kept decoded. This does not hold for node IDs.
  node.go:111 sends `string(n.host.ID())`, which is the peer ID's raw
  multihash bytes, not its base58 text. `encoding/json` replaces invalid
  UTF-8 with U+FFFD, so the record is stored under a lossy image of the ID,
  and two IDs can collide. The model keys node records by the ID string as
  given. This affects only node-record keys.
- Stub read and write errors inside the chaincode, and malformed JSON
  arguments to `RegisterNode` and `DeployApplication`. The only caller
  marshals a well-formed record.
- Internals of multiaddr parsing, peer-ID extraction, host connect, Kademlia
  bootstrap and close. They are predicates or given outcomes.
- The 5-minute ticker, goroutine scheduling, the context passed to connect
  calls, Fabric MVCC conflicts, and concurrent writers from other nodes.
  Go's random choice between a due tick and a cancellation that are ready
  at once is represented by the order of the loop's signals.
- Node.UpdateLoop: the loop is not tied to a node value. It is launched only
  after `Start` returned nil, and by `Node.Start` that implies the node has
  a table.
- The `ID` and `Addrs` accessors of the node. The host ID is a field of
  `Node.Node`. The address list, already as strings, is an input of each
  `Start` and `Stop` call, because the host reads it afresh each time.
- Log output of every `fmt.Printf`.

=== FILE: chaincode.dfy ===
/** The ledger-side registry (pkg/blockchain/chaincode/chaincode.go): a world
    state from string keys to records, in which node records and application
    records are upserted under their own IDs and one well-known key holds the
    ordered bootstrap address list.

    Values are kept in decoded form; their JSON encoding is assumed to round
    trip. A chaincode call that returns an error makes the transaction fail,
    so none of its writes are committed: an `Err` result carries no state.

    Reads see the state before the transaction: a Fabric `GetState` never
    returns a value written by a `PutState` of the same transaction, and of
    two writes to one key the later one is committed. Each function takes
    that committed state `ws`; `AddBootstrapPeer` also takes the writes the
    transaction has already staged. */
module Chaincode {
  import opened Outcomes

  datatype NodeInfo = NodeInfo(id: string, nodeType: string, address: string)

  datatype AppInfo = AppInfo(id: string, name: string, description: string, status: string)

  /** What a world-state key can hold. */
  datatype Entry =
    | NodeEntry(node: NodeInfo)
    | AppEntry(app: AppInfo)
    | PeerListEntry(peers: seq<string>)

  type WorldState = map<string, Entry>

  /** Node IDs, application IDs and this key all live in one key space. */
  const BootstrapPeersKey: string := "BootstrapPeersList"

  datatype ChaincodeError =
    /** The bytes under the bootstrap key are not a JSON array of strings
        (a node or application record was stored there). */
    | PeersUndecodable

  ghost predicate NoDuplicates(peers: seq<string>)
  {
    forall i, j :: 0 <= i < j < |peers| ==> peers[i] != peers[j]
  }

  /** Tiers whose nodes join the bootstrap list on registration. */
  predicate JoinsBootstrapList(nodeType: string)
  {
    nodeType == "fog" || nodeType == "cloud"
  }

  /** The stored list; `nil` (never written) reads as the empty list. */
  function GetBootstrapPeers(ws: WorldState): (r: Result<seq<string>, ChaincodeError>)
    ensures BootstrapPeersKey !in ws ==> r == Ok([])
    ensures BootstrapPeersKey in ws && ws[BootstrapPeersKey].PeerListEntry? ==> r == Ok(ws[BootstrapPeersKey].peers)
    ensures r.Err? <==> BootstrapPeersKey in ws && !ws[BootstrapPeersKey].PeerListEntry?
  {
    if BootstrapPeersKey !in ws then Ok([])
    else match ws[BootstrapPeersKey]
      case PeerListEntry(peers) => Ok(peers)
      case _ => Err(PeersUndecodable)
  }

  /** Set-union append. The list is read from the committed state `ws`; the
      write goes over `staged`, the state with the transaction's earlier
      writes applied. An address already listed writes nothing; a new one
      goes at the end. */
  function AddBootstrapPeer(ws: WorldState, staged: WorldState, address: string): (r: Result<WorldState, ChaincodeError>)
    ensures r.Ok? <==> GetBootstrapPeers(ws).Ok?
    ensures r.Ok? && address in GetBootstrapPeers(ws).value ==> r.value == staged
    ensures r.Ok? && address !in GetBootstrapPeers(ws).value ==>
              GetBootstrapPeers(r.value) == Ok(GetBootstrapPeers(ws).value + [address])
    ensures r.Ok? && GetBootstrapPeers(staged) == GetBootstrapPeers(ws) ==>
              GetBootstrapPeers(r.value).Ok? && address in GetBootstrapPeers(r.value).value
    ensures r.Ok? && GetBootstrapPeers(staged) == GetBootstrapPeers(ws) && NoDuplicates(GetBootstrapPeers(ws).value) ==>
              NoDuplicates(GetBootstrapPeers(r.value).value)
    ensures r.Ok? ==> forall k :: k != BootstrapPeersKey ==>
              (k in r.value <==> k in staged) && (k in staged ==> r.value[k] == staged[k])
  {
    var peers :- GetBootstrapPeers(ws);
    if address in peers then Ok(staged)
    else Ok(staged[BootstrapPeersKey := PeerListEntry(peers + [address])])
  }

  /** Position of the first occurrence of `a`. */
  function IndexOf(peers: seq<string>, a: string): (i: nat)
    requires a in peers
    ensures i < |peers| && peers[i] == a && a !in peers[..i]
  {
    if peers[0] == a then 0 else 1 + IndexOf(peers[1..], a)
  }

  /** Deletes the first exact occurrence of `a`; a list without `a` is
      returned unchanged. */
  function RemoveFirst(peers: seq<string>, a: string): (r: seq<string>)
    ensures a !in peers ==> r == peers
    ensures |r| == if a in peers then |peers| - 1 else |peers|
  {
    if |peers| == 0 then []
    else if peers[0] == a then peers[1..]
    else
      assert peers == [peers[0]] + peers[1..];
      [peers[0]] + RemoveFirst(peers[1..], a)
  }

  /** Removal takes away one copy of `a` when there is one, and nothing else. */
  lemma {:induction false} RemoveFirstMultiset(peers: seq<string>, a: string)
    ensures multiset(RemoveFirst(peers, a)) == multiset(peers) - multiset{a}
  {
    if |peers| > 0 {
      assert peers == [peers[0]] + peers[1..];
      if peers[0] != a {
        RemoveFirstMultiset(peers[1..], a);
      }
    }
  }

  /** Exactly the entry at the first match is cut out: everything before it
      and everything after it keep their relative order. */
  lemma {:induction false} RemoveFirstCutsFirstMatch(peers: seq<string>, a: string)
    requires a in peers
    ensures RemoveFirst(peers, a) == peers[..IndexOf(peers, a)] + peers[IndexOf(peers, a) + 1..]
  {
    if peers[0] != a {
      var t := peers[1..];
      assert a in t by { assert peers == [peers[0]] + t; }
      RemoveFirstCutsFirstMatch(t, a);
      var j := IndexOf(t, a);
      assert IndexOf(peers, a) == j + 1;
      assert RemoveFirst(peers, a) == [peers[0]] + (t[..j] + t[j + 1..]);
      TailSlices(peers, j);
      assert [peers[0]] + (t[..j] + t[j + 1..]) == ([peers[0]] + t[..j]) + t[j + 1..];
    }
  }

  /** Slices of a list's tail, shifted by one, are slices of the list. */
  lemma TailSlices(peers: seq<string>, j: nat)
    requires j + 1 < |peers|
    ensures peers[..j + 1] == [peers[0]] + peers[1..][..j]
    ensures peers[j + 2..] == peers[1..][j + 1..]
  {
  }

  /** Removing an address that was just appended to a list without it gives
      the list back. */
  lemma {:induction false} RemoveFirstAfterAppend(peers: seq<string>, a: string)
    requires a !in peers
    ensures RemoveFirst(peers + [a], a) == peers
  {
    if |peers| > 0 {
      assert (peers + [a])[1..] == peers[1..] + [a];
      RemoveFirstAfterAppend(peers[1..], a);
    }
  }

  /** Removal never introduces a duplicate. */
  lemma {:induction false} RemoveFirstKeepsNoDuplicates(peers: seq<string>, a: string)
    requires NoDuplicates(peers)
    ensures NoDuplicates(RemoveFirst(peers, a))
  {
    if |peers| > 0 {
      NoDuplicatesTail(peers);
      if peers[0] != a {
        RemoveFirstKeepsNoDuplicates(peers[1..], a);
        RemoveFirstOnlyRemoves(peers[1..], a, peers[0]);
        NoDuplicatesCons(peers[0], RemoveFirst(peers[1..], a));
      }
    }
  }

  lemma NoDuplicatesTail(peers: seq<string>)
    requires |peers| > 0 && NoDuplicates(peers)
    ensures NoDuplicates(peers[1..]) && peers[0] !in peers[1..]
  {
    var t := peers[1..];
    forall y | 0 <= y < |t| ensures t[y] != peers[0] {
      assert t[y] == peers[y + 1];
    }
    forall x, y | 0 <= x < y < |t| ensures t[x] != t[y] {
      assert t[x] == peers[x + 1] && t[y] == peers[y + 1];
    }
  }

  lemma NoDuplicatesCons(x: string, peers: seq<string>)
    requires x !in peers && NoDuplicates(peers)
    ensures NoDuplicates([x] + peers)
  {
    var r := [x] + peers;
    forall i, j | 0 <= i < j < |r| ensures r[i] != r[j] {
      assert r[j] == peers[j - 1];
      if i > 0 {
        assert r[i] == peers[i - 1];
      }
    }
  }

  lemma RemoveFirstOnlyRemoves(peers: seq<string>, a: string, x: string)
    requires x !in peers
    ensures x !in RemoveFirst(peers, a)
  {
    RemoveFirstMultiset(peers, a);
  }

  /** Rewrites the list without the first exact match of `address`. The list
      is written back even when the address is absent, which changes nothing
      a reader can see, and that case is not an error. */
  function RemoveBootstrapPeer(ws: WorldState, address: string): (r: Result<WorldState, ChaincodeError>)
    ensures r.Ok? <==> GetBootstrapPeers(ws).Ok?
    ensures r.Ok? ==> GetBootstrapPeers(r.value) == Ok(RemoveFirst(GetBootstrapPeers(ws).value, address))
    ensures r.Ok? && address !in GetBootstrapPeers(ws).value ==>
              GetBootstrapPeers(r.value) == GetBootstrapPeers(ws)
              && (BootstrapPeersKey in ws ==> r.value == ws)
    ensures r.Ok? ==> forall k :: k != BootstrapPeersKey ==>
              (k in r.value <==> k in ws) && (k in ws ==> r.value[k] == ws[k])
  {
    var peers :- GetBootstrapPeers(ws);
    Ok(ws[BootstrapPeersKey := PeerListEntry(RemoveFirst(peers, address))])
  }

  /** Stages the node record under its ID; fog and cloud nodes then join
      the bootstrap list, read as committed before the call. If joining
      fails the whole call fails and nothing is written. */
  function RegisterNode(ws: WorldState, info: NodeInfo): (r: Result<WorldState, ChaincodeError>)
    ensures r.Ok? <==> !JoinsBootstrapList(info.nodeType) || GetBootstrapPeers(ws).Ok?
    ensures r.Ok? ==> forall k :: k != BootstrapPeersKey && k != info.id ==>
              (k in r.value <==> k in ws) && (k in ws ==> r.value[k] == ws[k])
    ensures r.Ok? && (info.id != BootstrapPeersKey || !JoinsBootstrapList(info.nodeType)
                      || info.address in GetBootstrapPeers(ws).value) ==>
              info.id in r.value && r.value[info.id] == NodeEntry(info)
    ensures info.id != BootstrapPeersKey && !JoinsBootstrapList(info.nodeType) ==>
              GetBootstrapPeers(r.value) == GetBootstrapPeers(ws)
    ensures info.id != BootstrapPeersKey && r.Ok? && JoinsBootstrapList(info.nodeType)
            && info.address in GetBootstrapPeers(ws).value ==>
              GetBootstrapPeers(r.value) == GetBootstrapPeers(ws)
    ensures r.Ok? && JoinsBootstrapList(info.nodeType) && info.address !in GetBootstrapPeers(ws).value ==>
              GetBootstrapPeers(r.value) == Ok(GetBootstrapPeers(ws).value + [info.address])
  {
    var written := ws[info.id := NodeEntry(info)];
    if info.nodeType == "fog" || info.nodeType == "cloud" then AddBootstrapPeer(ws, written, info.address)
    else Ok(written)
  }

  /** Upserts the application record under its ID and nothing else. */
  function DeployApplication(ws: WorldState, app: AppInfo): (r: WorldState)
    ensures app.id in r && r[app.id] == AppEntry(app)
    ensures forall k :: k != app.id ==> (k in r <==> k in ws) && (k in ws ==> r[k] == ws[k])
    ensures app.id != BootstrapPeersKey ==> GetBootstrapPeers(r) == GetBootstrapPeers(ws)
    ensures app.id == BootstrapPeersKey ==> GetBootstrapPeers(r).Err?
  {
    ws[app.id := AppEntry(app)]
  }

  /** For an ID other than the list key, registering the same record twice
      is the same as registering it once: a node restarting with the same ID
      and address changes nothing. (At the list key the second registration
      leaves the record there in place of the list: see
      `RecordUnderBootstrapKey`.) */
  lemma RegisterNodeIdempotent(ws: WorldState, info: NodeInfo)
    requires info.id != BootstrapPeersKey
    requires RegisterNode(ws, info).Ok?
    ensures RegisterNode(RegisterNode(ws, info).value, info) == RegisterNode(ws, info)
  {
    var ws1 := RegisterNode(ws, info).value;
    assert ws1[info.id := NodeEntry(info)] == ws1;
  }

  /** For an ID other than the list key, a duplicate-free list stays
      duplicate-free under registration. */
  lemma RegisterNodeKeepsNoDuplicates(ws: WorldState, info: NodeInfo)
    requires info.id != BootstrapPeersKey
    requires GetBootstrapPeers(ws).Ok? && NoDuplicates(GetBootstrapPeers(ws).value)
    ensures RegisterNode(ws, info).Ok?
    ensures NoDuplicates(GetBootstrapPeers(RegisterNode(ws, info).value).value)
  {
    var written := ws[info.id := NodeEntry(info)];
    assert GetBootstrapPeers(written) == GetBootstrapPeers(ws);
  }

  /** Adding an address the list lacks and then removing it restores the
      list, and leaves every other key as it was. */
  lemma AddThenRemoveRestoresList(ws: WorldState, address: string)
    requires GetBootstrapPeers(ws).Ok? && address !in GetBootstrapPeers(ws).value
    ensures AddBootstrapPeer(ws, ws, address).Ok?
    ensures RemoveBootstrapPeer(AddBootstrapPeer(ws, ws, address).value, address).Ok?
    ensures GetBootstrapPeers(RemoveBootstrapPeer(AddBootstrapPeer(ws, ws, address).value, address).value)
            == GetBootstrapPeers(ws)
  {
    RemoveFirstAfterAppend(GetBootstrapPeers(ws).value, address);
  }

  /** Two fog nodes with distinct addresses register into an empty ledger, in
      that order, and then the first re-registers: the list is the two
      addresses in registration order, both before and after the restart. */
  lemma TwoFogNodesThenRestart(a: NodeInfo, b: NodeInfo)
    requires a.nodeType == "fog" && b.nodeType == "fog"
    requires a.id != BootstrapPeersKey && b.id != BootstrapPeersKey
    requires a.address != b.address
    ensures RegisterNode(map[], a).Ok?
    ensures RegisterNode(RegisterNode(map[], a).value, b).Ok?
    ensures var ws2 := RegisterNode(RegisterNode(map[], a).value, b).value;
            && GetBootstrapPeers(ws2) == Ok([a.address, b.address])
            && RegisterNode(ws2, a).Ok?
            && GetBootstrapPeers(RegisterNode(ws2, a).value) == Ok([a.address, b.address])
  {
    var empty: WorldState := map[];
    var r1 := RegisterNode(empty, a);
    assert r1.Ok? && GetBootstrapPeers(r1.value) == Ok([a.address]) by {
      assert GetBootstrapPeers(empty) == Ok([]);
      assert [] + [a.address] == [a.address];
    }
    var ws1 := r1.value;
    var r2 := RegisterNode(ws1, b);
    assert r2.Ok? && GetBootstrapPeers(r2.value) == Ok([a.address, b.address]) by {
      assert b.address !in [a.address];
      assert [a.address] + [b.address] == [a.address, b.address];
    }
    var ws2 := r2.value;
    assert a.address in [a.address, b.address];
  }

  /** Because the key space is shared, an application whose ID is the
      bootstrap key destroys the list: afterwards every fog or cloud
      registration and every removal fails. */
  lemma AppUnderBootstrapKeyBreaksRegistry(ws: WorldState, app: AppInfo, info: NodeInfo, address: string)
    requires app.id == BootstrapPeersKey
    requires JoinsBootstrapList(info.nodeType)
    ensures RegisterNode(DeployApplication(ws, app), info).Err?
    ensures RemoveBootstrapPeer(DeployApplication(ws, app), address).Err?
  {
    var ws1 := DeployApplication(ws, app);
    if info.id != BootstrapPeersKey {
      assert GetBootstrapPeers(ws1[info.id := NodeEntry(info)]).Err?;
    }
  }

  /** Because a read never sees the transaction's own writes, a fog or cloud
      record whose ID is the list key does not break registration: an
      unlisted address is appended to the committed list, overwriting the
      staged record, while a listed one leaves the record under the key, so
      the list can no longer be read. */
  lemma RecordUnderBootstrapKey(ws: WorldState, info: NodeInfo)
    requires info.id == BootstrapPeersKey && JoinsBootstrapList(info.nodeType)
    requires GetBootstrapPeers(ws).Ok?
    ensures RegisterNode(ws, info).Ok?
    ensures info.address !in GetBootstrapPeers(ws).value ==>
              GetBootstrapPeers(RegisterNode(ws, info).value) == Ok(GetBootstrapPeers(ws).value + [info.address])
    ensures info.address in GetBootstrapPeers(ws).value ==>
              GetBootstrapPeers(RegisterNode(ws, info).value).Err?
  {
  }
}

=== FILE: config.dfy ===
/** The node's configuration (pkg/config/config.go): the tier names and the
    pure part of flag parsing. Reading `os.Args` is replaced by a `Flags`
    value that says, per flag, whether it was given and with what text. */
module Config {
  import opened Outcomes
  import Text

  /** The tier is the flag's text, unvalidated: any string is a node type. */
  type NodeType = string

  const IoTNode: NodeType := "iot"
  const FogNode: NodeType := "fog"
  const CloudNode: NodeType := "cloud"

  const DefaultNodeType: string := "fog"
  const DefaultListenAddr: string := "/ip4/0.0.0.0/tcp/0"
  const DefaultBootstrap: string := ""
  const DefaultFabricConfigPath: string := "config.yaml"

  datatype Config = Config(
    nodeType: NodeType,
    listenAddr: string,
    bootstrapPeers: seq<string>,
    fabricConfigPath: string)

  /** The command line as the flag package sees it: `None` for a flag that
      was not given, `Some(text)` for one that was. */
  datatype Flags = Flags(
    nodeType: Option<string>,
    listen: Option<string>,
    bootstrap: Option<string>,
    fabricConfig: Option<string>)

  function FlagOr(flag: Option<string>, default: string): string
  {
    match flag
    case Some(text) => text
    case None => default
  }

  /** The `-bootstrap` text after defaulting. */
  function BootstrapText(flags: Flags): string
  {
    FlagOr(flags.bootstrap, DefaultBootstrap)
  }

  function ParseFlags(flags: Flags): (cfg: Config)
    ensures flags.nodeType.None? ==> cfg.nodeType == FogNode
    ensures flags.nodeType.Some? ==> cfg.nodeType == flags.nodeType.value
    ensures flags.listen.None? ==> cfg.listenAddr == "/ip4/0.0.0.0/tcp/0"
    ensures flags.listen.Some? ==> cfg.listenAddr == flags.listen.value
    ensures flags.fabricConfig.None? ==> cfg.fabricConfigPath == "config.yaml"
    ensures flags.fabricConfig.Some? ==> cfg.fabricConfigPath == flags.fabricConfig.value
    ensures cfg.bootstrapPeers == [] <==> BootstrapText(flags) == ""
    ensures BootstrapText(flags) != "" ==>
              && |cfg.bootstrapPeers| == Text.Count(BootstrapText(flags), ',') + 1
              && forall i :: 0 <= i < |cfg.bootstrapPeers| ==> ',' !in cfg.bootstrapPeers[i]
  {
    var raw := BootstrapText(flags);
    Config(
      FlagOr(flags.nodeType, DefaultNodeType),
      FlagOr(flags.listen, DefaultListenAddr),
      if raw != "" then Text.Split(raw, ',') else [],
      FlagOr(flags.fabricConfig, DefaultFabricConfigPath))
  }

  /** The parsed bootstrap list is the flag text cut at every comma: joining
      it back with commas restores the text exactly, so no piece was trimmed
      and no empty piece was dropped. An empty flag gives the empty list,
      whose join is the empty text. */
  lemma BootstrapListRestoresFlag(flags: Flags)
    ensures Text.Join(ParseFlags(flags).bootstrapPeers, ',') == BootstrapText(flags)
  {
    if BootstrapText(flags) != "" {
      Text.JoinSplit(BootstrapText(flags), ',');
    }
  }

  /** Conversely, a non-empty list of comma-free addresses, written on the
      command line joined by commas, is parsed back to exactly that list,
      empty addresses included. */
  lemma BootstrapFlagRestoresList(flags: Flags, peers: seq<string>)
    requires |peers| >= 1 && peers != [""]
    requires forall i :: 0 <= i < |peers| ==> ',' !in peers[i]
    requires flags.bootstrap == Some(Text.Join(peers, ','))
    ensures ParseFlags(flags).bootstrapPeers == peers
  {
    Text.SplitJoin(peers, ',');
  }
}

=== FILE: discovery.dfy ===
/** The distributed-table adapter (pkg/discovery/dht.go): its mode rule and
    the reconciliation tick `UpdateBootstrapPeers`, which fetches the shared
    bootstrap list, probes every address, re-bootstraps the table once and
    then asks the ledger to drop every address that could not be reached.

    The libp2p and ledger calls are not executed here: multiaddr parsing,
    peer-ID extraction and connecting are the predicates of a `Network`, and
    the fetch, the table bootstrap and every removal are given outcomes. The
    tick records the external calls it makes, in order, as a trace. */
module Discovery {
  import opened Outcomes

  /** Kademlia mode: forced to server, or left to the library (automatic). */
  datatype DhtMode = ServerMode | AutoMode

  datatype Dht = Dht(mode: DhtMode)

  datatype DhtError = DhtCreateFailed

  /** A node configured without bootstrap peers makes itself a joinable
      anchor (server mode); otherwise the library picks the mode. `created`
      is whether the library constructor succeeded. */
  function NewDht(bootstrapPeers: seq<string>, created: bool): (r: Result<Dht, DhtError>)
    ensures r.Ok? <==> created
    ensures r.Ok? ==> (r.value.mode == ServerMode <==> |bootstrapPeers| == 0)
  {
    if !created then Err(DhtCreateFailed)
    else if |bootstrapPeers| == 0 then Ok(Dht(ServerMode))
    else Ok(Dht(AutoMode))
  }

  /** The network as one tick sees it. `parses`: the text is a multiaddr;
      `hasPeerId`: that multiaddr carries a peer ID; `connects(i)`: the
      connection attempt for the i-th fetched entry succeeds (indexed by
      position, so two copies of one address may fare differently). */
  datatype Network = Network(
    parses: string -> bool,
    hasPeerId: string -> bool,
    connects: nat -> bool)

  /** How the probe of one fetched entry ended. */
  datatype Probe = Malformed | NoPeerId | ConnectFailed | Connected

  function ProbeAt(net: Network, addrs: seq<string>, i: nat): Probe
    requires i < |addrs|
  {
    if !net.parses(addrs[i]) then Malformed
    else if !net.hasPeerId(addrs[i]) then NoPeerId
    else if !net.connects(i) then ConnectFailed
    else Connected
  }

  predicate Reachable(net: Network, addrs: seq<string>, i: nat)
    requires i < |addrs|
  {
    ProbeAt(net, addrs, i) == Connected
  }

  /** External calls made by a tick, in the order they are made. */
  datatype Event =
    | FetchPeers
    | ConnectPeer(address: string)
    | BootstrapDht
    | RemovePeer(address: string, ok: bool)

  datatype TickError = FetchFailed | BootstrapFailed

  /** A finished tick: its calls, its two address lists, its return value. */
  datatype Tick = Tick(
    trace: seq<Event>,
    reachable: seq<string>,
    unreachable: seq<string>,
    result: Outcome<TickError>)

  /** State of the probe loop: the two lists and the connect calls made. */
  datatype Probed = Probed(reachable: seq<string>, unreachable: seq<string>, dials: seq<Event>)

  /** Reference for the probe loop after its first `n` iterations. */
  function ProbeLoop(net: Network, addrs: seq<string>, n: nat): (p: Probed)
    requires n <= |addrs|
    ensures |p.reachable| + |p.unreachable| == n
    ensures |p.dials| <= n
  {
    if n == 0 then Probed([], [], [])
    else
      var p := ProbeLoop(net, addrs, n - 1);
      var a := addrs[n - 1];
      match ProbeAt(net, addrs, n - 1)
      case Malformed => Probed(p.reachable, p.unreachable + [a], p.dials)
      case NoPeerId => Probed(p.reachable, p.unreachable + [a], p.dials)
      case ConnectFailed => Probed(p.reachable, p.unreachable + [a], p.dials + [ConnectPeer(a)])
      case Connected => Probed(p.reachable + [a], p.unreachable, p.dials + [ConnectPeer(a)])
  }

  /** The probe loop makes connect calls and nothing else. */
  lemma {:induction false} ProbeLoopOnlyDials(net: Network, addrs: seq<string>, n: nat)
    requires n <= |addrs|
    ensures forall k :: 0 <= k < |ProbeLoop(net, addrs, n).dials| ==> ProbeLoop(net, addrs, n).dials[k].ConnectPeer?
  {
    if n > 0 {
      ProbeLoopOnlyDials(net, addrs, n - 1);
      var d := ProbeLoop(net, addrs, n - 1).dials;
      var e := ProbeLoop(net, addrs, n).dials;
      assert e == d || e == d + [ConnectPeer(addrs[n - 1])];
    }
  }

  /** The first `n` removal calls for `dead`, with their given outcomes. */
  function RemovalEvents(dead: seq<string>, removeOk: nat -> bool, n: nat): (events: seq<Event>)
    requires n <= |dead|
    ensures |events| == n
    ensures forall k :: 0 <= k < n ==> events[k] == RemovePeer(dead[k], removeOk(k))
  {
    if n == 0 then [] else RemovalEvents(dead, removeOk, n - 1) + [RemovePeer(dead[n - 1], removeOk(n - 1))]
  }

  /** One reconciliation tick as a function of its external outcomes:
      `fetched` is the ledger read (`None` when it failed), `bootstrapOk` the
      outcome of the table bootstrap, `removeOk(k)` that of the k-th removal.
      The reachable list is collected but no call receives it. */
  function Reconcile(fetched: Option<seq<string>>, net: Network, bootstrapOk: bool, removeOk: nat -> bool): (t: Tick)
    ensures fetched.None? ==> t.trace == [FetchPeers] && t.result == Fail(FetchFailed)
    ensures fetched.Some? ==> |t.reachable| + |t.unreachable| == |fetched.value|
    ensures t.result == Fail(BootstrapFailed) <==> fetched.Some? && !bootstrapOk
    ensures t.result.Pass? <==> fetched.Some? && bootstrapOk
    ensures |t.trace| >= 1 && t.trace[0] == FetchPeers
  {
    match fetched
    case None => Tick([FetchPeers], [], [], Fail(FetchFailed))
    case Some(addrs) =>
      var p := ProbeLoop(net, addrs, |addrs|);
      var probed := [FetchPeers] + p.dials + [BootstrapDht];
      if !bootstrapOk then Tick(probed, p.reachable, p.unreachable, Fail(BootstrapFailed))
      else Tick(probed + RemovalEvents(p.unreachable, removeOk, |p.unreachable|), p.reachable, p.unreachable, Pass)
  }

  /** The probe loop as the source runs it: each entry is parsed, its peer
      ID extracted and, when both succeed, dialled; a failure at any stage
      marks the entry unreachable and moves on to the next one. */
  method ProbeAll(net: Network, addrs: seq<string>) returns (p: Probed)
    ensures p == ProbeLoop(net, addrs, |addrs|)
  {
    var reachable: seq<string> := [];
    var unreachable: seq<string> := [];
    var dials: seq<Event> := [];
    var i := 0;
    while i < |addrs|
      invariant 0 <= i <= |addrs|
      invariant ProbeLoop(net, addrs, i) == Probed(reachable, unreachable, dials)
    {
      var a := addrs[i];
      if !net.parses(a) {
        unreachable := unreachable + [a];
      } else if !net.hasPeerId(a) {
        unreachable := unreachable + [a];
      } else {
        dials := dials + [ConnectPeer(a)];
        if !net.connects(i) {
          unreachable := unreachable + [a];
        } else {
          reachable := reachable + [a];
        }
      }
      i := i + 1;
    }
    return Probed(reachable, unreachable, dials);
  }

  /** The removal loop: one ledger call per unreachable entry, in order; a
      failed call is only logged and the loop goes on. */
  method RemoveAll(dead: seq<string>, removeOk: nat -> bool) returns (events: seq<Event>)
    ensures events == RemovalEvents(dead, removeOk, |dead|)
  {
    events := [];
    var k := 0;
    while k < |dead|
      invariant 0 <= k <= |dead|
      invariant events == RemovalEvents(dead, removeOk, k)
    {
      events := events + [RemovePeer(dead[k], removeOk(k))];
      k := k + 1;
    }
  }

  /** The tick as the source runs it: the fetch, the probe loop, one
      bootstrap, then the removal loop. A failed removal does not change the
      return value. */
  method UpdateBootstrapPeers(fetched: Option<seq<string>>, net: Network, bootstrapOk: bool, removeOk: nat -> bool)
    returns (t: Tick)
    ensures t == Reconcile(fetched, net, bootstrapOk, removeOk)
  {
    if fetched.None? {
      return Tick([FetchPeers], [], [], Fail(FetchFailed));
    }
    var p := ProbeAll(net, fetched.value);
    var trace := [FetchPeers] + p.dials + [BootstrapDht];
    if !bootstrapOk {
      return Tick(trace, p.reachable, p.unreachable, Fail(BootstrapFailed));
    }
    var removals := RemoveAll(p.unreachable, removeOk);
    return Tick(trace + removals, p.reachable, p.unreachable, Pass);
  }

  /** Addresses of the removal calls in a trace, in order. */
  function RemovedAddresses(trace: seq<Event>): seq<string>
  {
    if |trace| == 0 then []
    else (if trace[0].RemovePeer? then [trace[0].address] else []) + RemovedAddresses(trace[1..])
  }

  lemma {:induction false} RemovedAddressesAppend(a: seq<Event>, b: seq<Event>)
    ensures RemovedAddresses(a + b) == RemovedAddresses(a) + RemovedAddresses(b)
  {
    if |a| > 0 {
      assert (a + b)[0] == a[0];
      assert (a + b)[1..] == a[1..] + b;
      RemovedAddressesAppend(a[1..], b);
      var head := if a[0].RemovePeer? then [a[0].address] else [];
      assert RemovedAddresses(a + b) == head + (RemovedAddresses(a[1..]) + RemovedAddresses(b));
      assert RemovedAddresses(a) == head + RemovedAddresses(a[1..]);
      assert head + (RemovedAddresses(a[1..]) + RemovedAddresses(b))
          == (head + RemovedAddresses(a[1..])) + RemovedAddresses(b);
    } else {
      assert a + b == b;
    }
  }

  lemma {:induction false} RemovedAddressesOfRemovals(dead: seq<string>, removeOk: nat -> bool, n: nat)
    requires n <= |dead|
    ensures RemovedAddresses(RemovalEvents(dead, removeOk, n)) == dead[..n]
  {
    if n > 0 {
      RemovedAddressesOfRemovals(dead, removeOk, n - 1);
      RemovedAddressesAppend(RemovalEvents(dead, removeOk, n - 1), [RemovePeer(dead[n - 1], removeOk(n - 1))]);
      assert dead[..n] == dead[..n - 1] + [dead[n - 1]];
    }
  }

  lemma {:induction false} NoRemovalsAmongDials(dials: seq<Event>)
    requires forall k :: 0 <= k < |dials| ==> dials[k].ConnectPeer?
    ensures RemovedAddresses(dials) == []
  {
    if |dials| > 0 {
      NoRemovalsAmongDials(dials[1..]);
    }
  }

  /** Removal calls are issued for exactly the unreachable entries, one per
      entry, duplicates included, in fetch order, whatever the outcome of
      each removal; there are none when the fetch or the bootstrap failed. */
  lemma RemovalsMatchUnreachable(fetched: Option<seq<string>>, net: Network, bootstrapOk: bool, removeOk: nat -> bool)
    ensures var t := Reconcile(fetched, net, bootstrapOk, removeOk);
            RemovedAddresses(t.trace) == if t.result.Pass? then t.unreachable else []
  {
    var t := Reconcile(fetched, net, bootstrapOk, removeOk);
    if fetched.Some? {
      var addrs := fetched.value;
      var p := ProbeLoop(net, addrs, |addrs|);
      ProbeLoopOnlyDials(net, addrs, |addrs|);
      NoRemovalsAmongDials(p.dials);
      RemovedAddressesAppend([FetchPeers], p.dials);
      RemovedAddressesAppend([FetchPeers] + p.dials, [BootstrapDht]);
      var probed := [FetchPeers] + p.dials + [BootstrapDht];
      assert RemovedAddresses(probed) == [];
      if bootstrapOk {
        var rm := RemovalEvents(p.unreachable, removeOk, |p.unreachable|);
        RemovedAddressesAppend(probed, rm);
        RemovedAddressesOfRemovals(p.unreachable, removeOk, |p.unreachable|);
        assert p.unreachable[..|p.unreachable|] == p.unreachable;
      }
    }
  }

  /** The outcome of each removal changes nothing about the tick except the
      outcome recorded with that removal: a failed removal does not stop the
      later ones or change the return value. */
  lemma RemovalOutcomesDoNotMatter(fetched: Option<seq<string>>, net: Network, bootstrapOk: bool, ok1: nat -> bool, ok2: nat -> bool)
    ensures var t1 := Reconcile(fetched, net, bootstrapOk, ok1);
            var t2 := Reconcile(fetched, net, bootstrapOk, ok2);
            && t1.result == t2.result
            && t1.reachable == t2.reachable && t1.unreachable == t2.unreachable
            && |t1.trace| == |t2.trace|
            && RemovedAddresses(t1.trace) == RemovedAddresses(t2.trace)
  {
    RemovalsMatchUnreachable(fetched, net, bootstrapOk, ok1);
    RemovalsMatchUnreachable(fetched, net, bootstrapOk, ok2);
  }

  /** After a successful fetch the table is bootstrapped exactly once, after
      every connect call and before every removal call, even for an empty
      list. */
  lemma BootstrapOnceBetweenProbesAndRemovals(addrs: seq<string>, net: Network, bootstrapOk: bool, removeOk: nat -> bool)
    ensures var t := Reconcile(Some(addrs), net, bootstrapOk, removeOk);
            var b := 1 + |ProbeLoop(net, addrs, |addrs|).dials|;
            && b < |t.trace| && t.trace[b] == BootstrapDht
            && (forall i :: 0 < i < b ==> t.trace[i].ConnectPeer?)
            && (forall i :: b < i < |t.trace| ==> t.trace[i].RemovePeer?)
            && (!bootstrapOk ==> |t.trace| == b + 1)
  {
    var t := Reconcile(Some(addrs), net, bootstrapOk, removeOk);
    var p := ProbeLoop(net, addrs, |addrs|);
    var b := 1 + |p.dials|;
    ProbeLoopOnlyDials(net, addrs, |addrs|);
    var probed := [FetchPeers] + p.dials + [BootstrapDht];
    assert forall i :: 0 < i < b ==> probed[i] == p.dials[i - 1];
    if bootstrapOk {
      var rm := RemovalEvents(p.unreachable, removeOk, |p.unreachable|);
      assert t.trace == probed + rm;
      assert forall i :: b < i < |t.trace| ==> t.trace[i] == rm[i - b - 1];
    }
  }

  /** Every fetched entry lands in exactly one of the two lists: together
      they hold the fetched entries with their multiplicities. */
  lemma {:induction false} ProbeLoopPartition(net: Network, addrs: seq<string>, n: nat)
    requires n <= |addrs|
    ensures multiset(addrs[..n])
            == multiset(ProbeLoop(net, addrs, n).reachable) + multiset(ProbeLoop(net, addrs, n).unreachable)
  {
    if n > 0 {
      ProbeLoopPartition(net, addrs, n - 1);
      ProbeLoopStep(net, addrs, n);
      PrefixSnoc(addrs, n);
      var p := ProbeLoop(net, addrs, n - 1);
      var q := ProbeLoop(net, addrs, n);
      PartitionGrows(addrs[..n - 1], p.reachable, p.unreachable, addrs[n - 1], q.reachable, q.unreachable);
    }
  }

  lemma PrefixSnoc(s: seq<string>, n: nat)
    requires 0 < n <= |s|
    ensures s[..n] == s[..n - 1] + [s[n - 1]]
  {
  }

  /** Appending an entry to one side of a partition partitions the longer list. */
  lemma PartitionGrows(whole: seq<string>, r: seq<string>, u: seq<string>, a: string, r2: seq<string>, u2: seq<string>)
    requires multiset(whole) == multiset(r) + multiset(u)
    requires (r2 == r + [a] && u2 == u) || (r2 == r && u2 == u + [a])
    ensures multiset(whole + [a]) == multiset(r2) + multiset(u2)
  {
  }

  /** One iteration of the probe loop appends the entry to exactly one list. */
  lemma ProbeLoopStep(net: Network, addrs: seq<string>, n: nat)
    requires 0 < n <= |addrs|
    ensures var p := ProbeLoop(net, addrs, n - 1);
            var q := ProbeLoop(net, addrs, n);
            if Reachable(net, addrs, n - 1)
            then q.reachable == p.reachable + [addrs[n - 1]] && q.unreachable == p.unreachable
            else q.unreachable == p.unreachable + [addrs[n - 1]] && q.reachable == p.reachable
  {
  }

  /** An address is in the unreachable list iff some copy of it failed to
      parse as a multiaddr, carried no peer ID or failed to connect. */
  lemma {:induction false} UnreachableMeansProbeFailed(net: Network, addrs: seq<string>, n: nat, a: string)
    requires n <= |addrs|
    ensures a in ProbeLoop(net, addrs, n).unreachable <==>
            exists i :: 0 <= i < n && addrs[i] == a && !Reachable(net, addrs, i)
  {
    if n > 0 {
      UnreachableMeansProbeFailed(net, addrs, n - 1, a);
      if !Reachable(net, addrs, n - 1) && addrs[n - 1] == a {
        assert ProbeLoop(net, addrs, n).unreachable == ProbeLoop(net, addrs, n - 1).unreachable + [a];
      }
    }
  }

  /** An address is in the reachable list iff some copy of it connected. */
  lemma {:induction false} ReachableMeansConnected(net: Network, addrs: seq<string>, n: nat, a: string)
    requires n <= |addrs|
    ensures a in ProbeLoop(net, addrs, n).reachable <==>
            exists i :: 0 <= i < n && addrs[i] == a && Reachable(net, addrs, i)
  {
    if n > 0 {
      ReachableMeansConnected(net, addrs, n - 1, a);
      if Reachable(net, addrs, n - 1) && addrs[n - 1] == a {
        assert ProbeLoop(net, addrs, n).reachable == ProbeLoop(net, addrs, n - 1).reachable + [a];
      }
    }
  }

  /** A connect call is made exactly for the entries that parse and carry a
      peer ID, in fetch order; malformed entries are never dialled. */
  lemma {:induction false} DialsAreWellFormedEntries(net: Network, addrs: seq<string>, n: nat, a: string)
    requires n <= |addrs|
    ensures ConnectPeer(a) in ProbeLoop(net, addrs, n).dials <==>
            exists i :: 0 <= i < n && addrs[i] == a && net.parses(a) && net.hasPeerId(a)
  {
    if n > 0 {
      DialsAreWellFormedEntries(net, addrs, n - 1, a);
      if addrs[n - 1] == a && net.parses(a) && net.hasPeerId(a) {
        assert ProbeLoop(net, addrs, n).dials == ProbeLoop(net, addrs, n - 1).dials + [ConnectPeer(a)];
      }
    }
  }
}

=== FILE: node.dfy ===
/** The node supervisor (pkg/node/node.go): tier-dependent construction, the
    `Start` and `Stop` step sequences, and the bootstrap-update loop.

    Every foreign step (key generation, host creation, the mDNS service, the
    table, the ledger client) is represented by its outcome only. The host's
    address list is read afresh by each of `Start` and `Stop` (NAT port
    mapping and relays can change it), so each takes it as part of its
    environment. `Start` and
    `Stop` return the calls they made, in order, and how they ended; a Go
    panic (a method on a nil table, indexing an empty address list) is an
    explicit exit of its own. */
module Node {
  import opened Outcomes
  import Config
  import Chaincode
  import Discovery

  datatype Node = Node(
    hostId: string,
    cfg: Config.Config,
    mdns: bool,
    dht: Option<Discovery.Dht>)

  /** Outcomes of the foreign steps of construction, and the host they give. */
  datatype Construction = Construction(
    keyPairOk: bool,
    listenAddrOk: bool,
    hostOk: bool,
    hostId: string,
    dhtOk: bool,
    fabricOk: bool)

  datatype BuildError = KeyGenFailed | InvalidListenAddr | HostFailed | DhtFailed | FabricSetupFailed

  /** Builds the node: key pair, listen address, host; an mDNS service unless
      the tier is cloud (its constructor cannot fail); a table unless the
      tier is iot; then the ledger client. The first failing step decides the
      error. */
  function NewNode(cfg: Config.Config, env: Construction): (r: Result<Node, BuildError>)
    ensures r.Ok? <==> && env.keyPairOk && env.listenAddrOk && env.hostOk
                       && (cfg.nodeType != Config.IoTNode ==> env.dhtOk) && env.fabricOk
    ensures r.Ok? ==> r.value.cfg == cfg && r.value.hostId == env.hostId
    ensures r.Ok? ==> (r.value.mdns <==> cfg.nodeType != Config.CloudNode)
    ensures r.Ok? ==> (r.value.dht.Some? <==> cfg.nodeType != Config.IoTNode)
    ensures r.Ok? && r.value.dht.Some? ==>
              (r.value.dht.value.mode == Discovery.ServerMode <==> |cfg.bootstrapPeers| == 0)
    ensures r == Err(DhtFailed) ==> cfg.nodeType != Config.IoTNode && env.hostOk && !env.dhtOk
    ensures r == Err(FabricSetupFailed) ==> env.hostOk && (cfg.nodeType != Config.IoTNode ==> env.dhtOk)
  {
    if !env.keyPairOk then Err(KeyGenFailed)
    else if !env.listenAddrOk then Err(InvalidListenAddr)
    else if !env.hostOk then Err(HostFailed)
    else
      var mdns := cfg.nodeType != Config.CloudNode;
      var dht :- if cfg.nodeType != Config.IoTNode then
                   match Discovery.NewDht(cfg.bootstrapPeers, env.dhtOk)
                   case Ok(d) => Ok(Some(d))
                   case Err(_) => Err(DhtFailed)
                 else Ok(None);
      if !env.fabricOk then Err(FabricSetupFailed)
      else Ok(Node(env.hostId, cfg, mdns, dht))
  }

  /** Which adapters a node has and whether it joins the bootstrap list. */
  datatype Capabilities = Capabilities(localAdvertiser: bool, distributedTable: bool, joinsBootstrapList: bool)

  /** The documented tier table for the three named tiers: an iot node has
      only the local advertiser, a fog node has both adapters and joins the
      list, a cloud node has only the table and joins the list. */
  function TierTable(tier: Config.NodeType): Capabilities
    requires tier == Config.IoTNode || tier == Config.FogNode || tier == Config.CloudNode
  {
    if tier == Config.IoTNode then Capabilities(true, false, false)
    else if tier == Config.FogNode then Capabilities(true, true, true)
    else Capabilities(false, true, true)
  }

  function CapabilitiesOf(node: Node): Capabilities
  {
    Capabilities(node.mdns, node.dht.Some?, Chaincode.JoinsBootstrapList(node.cfg.nodeType))
  }

  /** Construction follows the tier table for the named tiers; any other
      type string gets both adapters like fog, but does not join the list. */
  lemma CapabilityMatrix(cfg: Config.Config, env: Construction)
    requires NewNode(cfg, env).Ok?
    ensures cfg.nodeType == Config.IoTNode || cfg.nodeType == Config.FogNode || cfg.nodeType == Config.CloudNode ==>
              CapabilitiesOf(NewNode(cfg, env).value) == TierTable(cfg.nodeType)
    ensures cfg.nodeType != Config.IoTNode && cfg.nodeType != Config.FogNode && cfg.nodeType != Config.CloudNode ==>
              CapabilitiesOf(NewNode(cfg, env).value) == Capabilities(true, true, false)
  {
  }

  /** A node started with default flags is a fog node with both adapters and
      a table in server mode. */
  lemma DefaultFlagsGiveFogAnchor(env: Construction)
    requires env.keyPairOk && env.listenAddrOk && env.hostOk && env.dhtOk && env.fabricOk
    ensures var cfg := Config.ParseFlags(Config.Flags(None, None, None, None));
            && NewNode(cfg, env).Ok?
            && CapabilitiesOf(NewNode(cfg, env).value) == Capabilities(true, true, true)
            && NewNode(cfg, env).value.dht == Some(Discovery.Dht(Discovery.ServerMode))
  {
  }

  /** External calls of `Start` and `Stop`. */
  datatype Step =
    | DhtStart
    | DhtBootstrap
    | MdnsStart
    | Register(info: Chaincode.NodeInfo)
    | LaunchUpdateLoop
    | MdnsStop
    | DhtStop
    | RemoveSelf(address: string, ok: bool)
    | HostClose

  datatype Panic = NilDht | NoHostAddress

  /** How a call ended: returned nil, returned an error, or panicked. */
  datatype Exit<+E> = Done | Failed(error: E) | Panicked(cause: Panic)

  datatype Run<+E> = Run(steps: seq<Step>, exit: Exit<E>)

  /** Outcomes of the table bootstrap, the mDNS start and the registration,
      and the host's addresses as `Start` reads them. */
  datatype StartEnv = StartEnv(bootstrapOk: bool, mdnsStartOk: bool, registerOk: bool, hostAddrs: seq<string>)

  datatype StartError = BootstrapFailed | MdnsStartFailed | RegisterFailed

  /** The record a node registers: its host ID, its type string and its
      first host address. */
  function SelfRecord(node: Node, hostAddrs: seq<string>): Chaincode.NodeInfo
    requires |hostAddrs| > 0
  {
    Chaincode.NodeInfo(node.hostId, node.cfg.nodeType, hostAddrs[0])
  }

  /** Reference: the calls of a start that nothing interrupts. */
  function StartPlan(node: Node, hostAddrs: seq<string>): seq<Step>
    requires |hostAddrs| > 0
  {
    [DhtStart, DhtBootstrap] + (if node.mdns then [MdnsStart] else []) + [Register(SelfRecord(node, hostAddrs)), LaunchUpdateLoop]
  }

  /** Table start (which returns nil without touching its receiver), table
      bootstrap, mDNS start when present, registration, update-loop launch;
      the first failure returns at once. Bootstrapping a nil table panics. */
  function Start(node: Node, env: StartEnv): (run: Run<StartError>)
    ensures run.exit.Done? <==> && node.dht.Some? && env.bootstrapOk && (node.mdns ==> env.mdnsStartOk)
                                && |env.hostAddrs| > 0 && env.registerOk
    ensures run.exit.Done? ==> run.steps == StartPlan(node, env.hostAddrs)
    ensures |env.hostAddrs| > 0 ==> run.steps <= StartPlan(node, env.hostAddrs)
    ensures LaunchUpdateLoop in run.steps <==> run.exit.Done?
    ensures node.dht.None? ==> run == Run([DhtStart, DhtBootstrap], Panicked(NilDht))
    ensures node.dht.Some? && !env.bootstrapOk ==> run == Run([DhtStart, DhtBootstrap], Failed(BootstrapFailed))
    ensures node.dht.Some? && env.bootstrapOk && node.mdns && !env.mdnsStartOk ==>
              run == Run([DhtStart, DhtBootstrap, MdnsStart], Failed(MdnsStartFailed))
    ensures node.dht.Some? && env.bootstrapOk && (node.mdns ==> env.mdnsStartOk) && |env.hostAddrs| == 0 ==>
              run == Run([DhtStart, DhtBootstrap] + (if node.mdns then [MdnsStart] else []), Panicked(NoHostAddress))
    ensures (node.dht.Some? && env.bootstrapOk && (node.mdns ==> env.mdnsStartOk) && |env.hostAddrs| > 0
             && !env.registerOk) ==> run.exit == Failed(RegisterFailed)
    ensures forall i :: 0 <= i < |run.steps| && run.steps[i].Register? ==>
              |env.hostAddrs| > 0 && run.steps[i].info == SelfRecord(node, env.hostAddrs)
    ensures run.exit == Failed(RegisterFailed) ==>
              |env.hostAddrs| > 0 && run.steps == StartPlan(node, env.hostAddrs)[..|StartPlan(node, env.hostAddrs)| - 1]
  {
    var started := [DhtStart, DhtBootstrap];
    if node.dht.None? then Run(started, Panicked(NilDht))
    else if !env.bootstrapOk then Run(started, Failed(BootstrapFailed))
    else if node.mdns && !env.mdnsStartOk then Run(started + [MdnsStart], Failed(MdnsStartFailed))
    else
      var adapters := started + (if node.mdns then [MdnsStart] else []);
      if |env.hostAddrs| == 0 then Run(adapters, Panicked(NoHostAddress))
      else
        var registered := adapters + [Register(SelfRecord(node, env.hostAddrs))];
        assert StartPlan(node, env.hostAddrs) == registered + [LaunchUpdateLoop];
        if !env.registerOk then Run(registered, Failed(RegisterFailed))
        else Run(registered + [LaunchUpdateLoop], Done)
  }

  /** Outcomes of the table close, the self-removal and the host close, and
      the host's addresses as `Stop` reads them. */
  datatype StopEnv = StopEnv(dhtCloseOk: bool, removeOk: bool, hostCloseOk: bool, hostAddrs: seq<string>)

  datatype StopError = DhtStopFailed | HostCloseFailed

  predicate LeavesOnStop(nodeType: Config.NodeType)
  {
    nodeType == Config.FogNode || nodeType == Config.CloudNode
  }

  /** Reference: the calls of a stop that nothing interrupts. */
  function StopPlan(node: Node, env: StopEnv): seq<Step>
    requires |env.hostAddrs| > 0
  {
    (if node.mdns then [MdnsStop] else []) + [DhtStop]
    + (if LeavesOnStop(node.cfg.nodeType) then [RemoveSelf(env.hostAddrs[0], env.removeOk)] else [])
    + [HostClose]
  }

  /** mDNS stop when present (its error is only logged), table stop (an error
      returns at once, a nil table panics), removal of the node's own first
      address for fog and cloud (its error is only logged), host close. */
  function Stop(node: Node, env: StopEnv): (run: Run<StopError>)
    ensures run.exit.Done? <==> && node.dht.Some? && env.dhtCloseOk
                                && (LeavesOnStop(node.cfg.nodeType) ==> |env.hostAddrs| > 0) && env.hostCloseOk
    ensures |env.hostAddrs| > 0 ==> run.steps <= StopPlan(node, env)
    ensures node.dht.Some? && env.dhtCloseOk && |env.hostAddrs| > 0 ==> run.steps == StopPlan(node, env)
    ensures (exists i :: 0 <= i < |run.steps| && run.steps[i].RemoveSelf?) <==>
              node.dht.Some? && env.dhtCloseOk && LeavesOnStop(node.cfg.nodeType) && |env.hostAddrs| > 0
    ensures forall i, j :: 0 <= i < j < |run.steps| ==> !(run.steps[i].RemoveSelf? && run.steps[j].RemoveSelf?)
    ensures forall i :: 0 <= i < |run.steps| && run.steps[i].RemoveSelf? ==>
              |env.hostAddrs| > 0 && run.steps[i] == RemoveSelf(env.hostAddrs[0], env.removeOk)
    ensures !env.dhtCloseOk ==> HostClose !in run.steps
    ensures node.dht.None? ==> run == Run((if node.mdns then [MdnsStop] else []) + [DhtStop], Panicked(NilDht))
    ensures node.dht.Some? && !env.dhtCloseOk ==>
              run == Run((if node.mdns then [MdnsStop] else []) + [DhtStop], Failed(DhtStopFailed))
    ensures node.dht.Some? && env.dhtCloseOk && LeavesOnStop(node.cfg.nodeType) && |env.hostAddrs| == 0 ==>
              run == Run((if node.mdns then [MdnsStop] else []) + [DhtStop], Panicked(NoHostAddress))
    ensures (node.dht.Some? && env.dhtCloseOk && (LeavesOnStop(node.cfg.nodeType) ==> |env.hostAddrs| > 0)
             && !env.hostCloseOk) ==> run.exit == Failed(HostCloseFailed)
  {
    var stopped := (if node.mdns then [MdnsStop] else []) + [DhtStop];
    if node.dht.None? then Run(stopped, Panicked(NilDht))
    else if !env.dhtCloseOk then Run(stopped, Failed(DhtStopFailed))
    else if LeavesOnStop(node.cfg.nodeType) && |env.hostAddrs| == 0 then Run(stopped, Panicked(NoHostAddress))
    else
      var left := stopped + (if LeavesOnStop(node.cfg.nodeType) then [RemoveSelf(env.hostAddrs[0], env.removeOk)] else []);
      var run := Run(left + [HostClose], if env.hostCloseOk then Done else Failed(HostCloseFailed));
      assert LeavesOnStop(node.cfg.nodeType) ==> run.steps[|stopped|].RemoveSelf?;
      run
  }

  /** A failed self-removal is invisible in how `Stop` ends. */
  lemma StopIgnoresRemovalOutcome(node: Node, env: StopEnv)
    ensures Stop(node, env).exit == Stop(node, env.(removeOk := !env.removeOk)).exit
    ensures |Stop(node, env).steps| == |Stop(node, env.(removeOk := !env.removeOk)).steps|
  {
  }

  /** A constructed iot node has no table, so `Start` panics at the table
      bootstrap, before registering, and `Stop` panics at the table stop,
      before any self-removal. */
  lemma IotNodePanics(cfg: Config.Config, cenv: Construction, senv: StartEnv, tenv: StopEnv)
    requires cfg.nodeType == Config.IoTNode
    requires NewNode(cfg, cenv).Ok?
    ensures var node := NewNode(cfg, cenv).value;
            && Start(node, senv) == Run([DhtStart, DhtBootstrap], Panicked(NilDht))
            && Stop(node, tenv) == Run([MdnsStop, DhtStop], Panicked(NilDht))
  {
  }

  /** A fog or cloud node starting against an empty ledger registers itself,
      and the bootstrap list becomes the first address the host reported to
      `Start`, alone. */
  lemma FreshNodeJoinsEmptyRegistry(node: Node, env: StartEnv)
    requires LeavesOnStop(node.cfg.nodeType)
    requires Start(node, env).exit.Done?
    ensures Register(SelfRecord(node, env.hostAddrs)) in Start(node, env).steps
    ensures Chaincode.RegisterNode(map[], SelfRecord(node, env.hostAddrs)).Ok?
    ensures Chaincode.GetBootstrapPeers(Chaincode.RegisterNode(map[], SelfRecord(node, env.hostAddrs)).value)
            == Ok([env.hostAddrs[0]])
  {
    var plan := StartPlan(node, env.hostAddrs);
    assert plan[|plan| - 2] == Register(SelfRecord(node, env.hostAddrs));
    var empty: Chaincode.WorldState := map[];
    assert Chaincode.GetBootstrapPeers(empty) == Ok([]);
    assert [] + [env.hostAddrs[0]] == [env.hostAddrs[0]];
  }

  /** A fog or cloud node whose address was not yet listed, started and then
      stopped with no other writer in between, leaves the list as it found
      it, provided the host still reports the same first address at `Stop`
      as it did at `Start`: registration appends that address and the
      self-removal takes it out again. */
  lemma StartThenStopRestoresList(node: Node, senv: StartEnv, tenv: StopEnv, ws: Chaincode.WorldState)
    requires LeavesOnStop(node.cfg.nodeType)
    requires Start(node, senv).exit.Done? && tenv.dhtCloseOk
    requires |tenv.hostAddrs| > 0 && tenv.hostAddrs[0] == senv.hostAddrs[0]
    requires Chaincode.GetBootstrapPeers(ws).Ok? && senv.hostAddrs[0] !in Chaincode.GetBootstrapPeers(ws).value
    ensures Chaincode.RegisterNode(ws, SelfRecord(node, senv.hostAddrs)).Ok?
    ensures RemoveSelf(tenv.hostAddrs[0], tenv.removeOk) in Stop(node, tenv).steps
    ensures var joined := Chaincode.RegisterNode(ws, SelfRecord(node, senv.hostAddrs)).value;
            && Chaincode.RemoveBootstrapPeer(joined, tenv.hostAddrs[0]).Ok?
            && Chaincode.GetBootstrapPeers(Chaincode.RemoveBootstrapPeer(joined, tenv.hostAddrs[0]).value)
               == Chaincode.GetBootstrapPeers(ws)
  {
    var l := Chaincode.GetBootstrapPeers(ws).value;
    var plan := StopPlan(node, tenv);
    assert plan[|plan| - 2] == RemoveSelf(tenv.hostAddrs[0], tenv.removeOk);
    Chaincode.RemoveFirstAfterAppend(l, senv.hostAddrs[0]);
  }

  /** If the host's first address changed between `Start` and `Stop`, the
      self-removal misses: the address registered at `Start` stays listed. */
  lemma AddressChangeLeavesStaleEntry(node: Node, senv: StartEnv, tenv: StopEnv, ws: Chaincode.WorldState)
    requires LeavesOnStop(node.cfg.nodeType)
    requires node.hostId != Chaincode.BootstrapPeersKey
    requires Start(node, senv).exit.Done?
    requires |tenv.hostAddrs| > 0 && tenv.hostAddrs[0] != senv.hostAddrs[0]
    requires Chaincode.GetBootstrapPeers(ws).Ok?
    ensures Chaincode.RegisterNode(ws, SelfRecord(node, senv.hostAddrs)).Ok?
    ensures var joined := Chaincode.RegisterNode(ws, SelfRecord(node, senv.hostAddrs)).value;
            && Chaincode.RemoveBootstrapPeer(joined, tenv.hostAddrs[0]).Ok?
            && senv.hostAddrs[0] in Chaincode.GetBootstrapPeers(Chaincode.RemoveBootstrapPeer(joined, tenv.hostAddrs[0]).value).value
  {
    var info := SelfRecord(node, senv.hostAddrs);
    var joined := Chaincode.RegisterNode(ws, info).value;
    var listed := Chaincode.GetBootstrapPeers(joined).value;
    assert senv.hostAddrs[0] in listed;
    Chaincode.RemoveFirstMultiset(listed, tenv.hostAddrs[0]);
    assert multiset(Chaincode.RemoveFirst(listed, tenv.hostAddrs[0]))[senv.hostAddrs[0]]
        == multiset(listed)[senv.hostAddrs[0]];
  }

  /** The node leaves the list on `Stop` for exactly the tiers the chaincode
      adds on registration: the tier constants are the strings the chaincode
      compares against. */
  lemma StopAndRegisterAgreeOnTiers(nodeType: Config.NodeType)
    ensures LeavesOnStop(nodeType) <==> Chaincode.JoinsBootstrapList(nodeType)
  {
  }

  /** What the update loop sees at each wake-up: a due tick, with the
      outcomes of that tick's external calls, or the context's cancellation. */
  datatype Signal =
    | TickDue(fetched: Option<seq<string>>, net: Discovery.Network, bootstrapOk: bool, removeOk: nat -> bool)
    | Cancelled

  /** The update loop: every due tick runs one whole reconciliation, one at a
      time, and its error is only logged; the first cancellation ends the
      loop. */
  function UpdateLoop(signals: seq<Signal>): (ticks: seq<Discovery.Tick>)
    ensures |ticks| <= |signals|
    ensures forall k :: 0 <= k < |ticks| ==>
              && signals[k].TickDue?
              && ticks[k] == Discovery.Reconcile(signals[k].fetched, signals[k].net, signals[k].bootstrapOk, signals[k].removeOk)
    ensures |ticks| < |signals| ==> signals[|ticks|].Cancelled?
  {
    if |signals| == 0 then []
    else match signals[0]
      case Cancelled => []
      case TickDue(fetched, net, bootstrapOk, removeOk) =>
        [Discovery.Reconcile(fetched, net, bootstrapOk, removeOk)] + UpdateLoop(signals[1..])
  }

  /** Nothing after a cancellation runs. */
  lemma {:induction false} CancellationEndsLoop(before: seq<Signal>, after: seq<Signal>)
    requires forall k :: 0 <= k < |before| ==> before[k].TickDue?
    ensures UpdateLoop(before + [Cancelled] + after) == UpdateLoop(before)
    ensures |UpdateLoop(before)| == |before|
  {
    if |before| > 0 {
      CancellationEndsLoop(before[1..], after);
      assert (before + [Cancelled] + after)[1..] == before[1..] + [Cancelled] + after;
    }
  }
}

=== FILE: outcomes.dfy ===
/** Failure-carrying values shared by every module of the model: Go's
    `(value, error)` pairs become `Result`, a bare `error` return becomes
    `Outcome`, and a nil-able pointer becomes `Option`. */
module Outcomes {

  /** A value or an error; failure-compatible, so `:-` propagates `Err`. */
  datatype Result<+T, +E> = Ok(value: T) | Err(error: E) {
    predicate IsFailure() {
      Err?
    }

    function PropagateFailure<U>(): Result<U, E>
      requires Err?
    {
      Err(error)
    }

    function Extract(): T
      requires Ok?
    {
      value
    }
  }

  /** Go's `error` result: `Pass` is a nil error. */
  datatype Outcome<+E> = Pass | Fail(error: E)

  /** A pointer that may be nil. */
  datatype Option<+T> = None | Some(value: T)
}

=== FILE: reconciliation.dfy ===
/** What one reconciliation tick does to the shared registry when its removal
    calls reach the chaincode in the order the tick issues them, with no
    other writer in between. Each removal is its own transaction: one the
    chaincode rejects leaves the world state as it was. */
module Reconciliation {
  import opened Outcomes
  import Chaincode
  import Discovery

  /** The ledger after the removals of `addrs`, first to last. */
  function ApplyRemovals(ws: Chaincode.WorldState, addrs: seq<string>): Chaincode.WorldState
    decreases |addrs|
  {
    if |addrs| == 0 then ws
    else
      var next := match Chaincode.RemoveBootstrapPeer(ws, addrs[0])
        case Ok(written) => written
        case Err(_) => ws;
      ApplyRemovals(next, addrs[1..])
  }

  /** `peers` after deleting the first match of each of `dead`, in order. */
  function RemoveEach(peers: seq<string>, dead: seq<string>): seq<string>
    decreases |dead|
  {
    if |dead| == 0 then peers else RemoveEach(Chaincode.RemoveFirst(peers, dead[0]), dead[1..])
  }

  /** On a readable list, the removals act on the list alone. */
  lemma {:induction false} ApplyRemovalsOnList(ws: Chaincode.WorldState, dead: seq<string>)
    requires Chaincode.GetBootstrapPeers(ws).Ok?
    ensures Chaincode.GetBootstrapPeers(ApplyRemovals(ws, dead))
            == Ok(RemoveEach(Chaincode.GetBootstrapPeers(ws).value, dead))
    decreases |dead|
  {
    if |dead| > 0 {
      var next := Chaincode.RemoveBootstrapPeer(ws, dead[0]).value;
      ApplyRemovalsOnList(next, dead[1..]);
    }
  }

  /** The removals take away exactly the removed addresses, counted with
      their multiplicity. */
  lemma {:induction false} RemoveEachMultiset(peers: seq<string>, dead: seq<string>)
    ensures multiset(RemoveEach(peers, dead)) == multiset(peers) - multiset(dead)
    decreases |dead|
  {
    if |dead| > 0 {
      var rest := Chaincode.RemoveFirst(peers, dead[0]);
      Chaincode.RemoveFirstMultiset(peers, dead[0]);
      RemoveEachMultiset(rest, dead[1..]);
      assert dead == [dead[0]] + dead[1..];
      assert multiset(dead) == multiset{dead[0]} + multiset(dead[1..]);
      DifferenceOfSum(multiset(peers), multiset{dead[0]}, multiset(dead[1..]));
    }
  }

  lemma DifferenceOfSum(m: multiset<string>, a: multiset<string>, b: multiset<string>)
    ensures (m - a) - b == m - (a + b)
  {
    forall x ensures ((m - a) - b)[x] == (m - (a + b))[x] {
    }
  }

  lemma {:induction false} RemoveEachConcat(peers: seq<string>, d1: seq<string>, d2: seq<string>)
    ensures RemoveEach(peers, d1 + d2) == RemoveEach(RemoveEach(peers, d1), d2)
    decreases |d1|
  {
    if |d1| == 0 {
      assert d1 + d2 == d2;
    } else {
      assert (d1 + d2)[0] == d1[0];
      assert (d1 + d2)[1..] == d1[1..] + d2;
      RemoveEachConcat(Chaincode.RemoveFirst(peers, d1[0]), d1[1..], d2);
    }
  }

  /** Removing `d` does not disturb an entry appended after a list that holds
      `d`, nor one that differs from `d`. */
  lemma {:induction false} RemoveFirstBeforeAppended(peers: seq<string>, d: string, x: string)
    requires d in peers || d != x
    ensures Chaincode.RemoveFirst(peers + [x], d) == Chaincode.RemoveFirst(peers, d) + [x]
  {
    if |peers| == 0 {
      assert [] + [x] == [x];
    } else {
      assert (peers + [x])[0] == peers[0];
      assert (peers + [x])[1..] == peers[1..] + [x];
      if peers[0] != d {
        assert d in peers[1..] || d != x by {
          if d in peers {
            assert peers == [peers[0]] + peers[1..];
          }
        }
        RemoveFirstBeforeAppended(peers[1..], d, x);
      }
    }
  }

  lemma {:induction false} RemoveEachBeforeAppended(peers: seq<string>, dead: seq<string>, x: string)
    requires x !in dead || multiset(dead) <= multiset(peers)
    ensures RemoveEach(peers + [x], dead) == RemoveEach(peers, dead) + [x]
    decreases |dead|
  {
    if |dead| > 0 {
      var d := dead[0];
      assert dead == [d] + dead[1..];
      assert d in peers || d != x by {
        if d == x {
          assert multiset(dead)[d] > 0;
        }
      }
      RemoveFirstBeforeAppended(peers, d, x);
      var rest := Chaincode.RemoveFirst(peers, d);
      Chaincode.RemoveFirstMultiset(peers, d);
      assert x !in dead[1..] || multiset(dead[1..]) <= multiset(rest) by {
        if x in dead[1..] {
          assert multiset(dead) == multiset{d} + multiset(dead[1..]);
          assert multiset(rest) == multiset(peers) - multiset{d};
        }
      }
      RemoveEachBeforeAppended(rest, dead[1..], x);
    }
  }

  /** The entries of `peers` whose liveness is `want`, in order. */
  function Select(peers: seq<string>, alive: string -> bool, want: bool): seq<string>
  {
    if |peers| == 0 then []
    else
      var init := peers[..|peers| - 1];
      var last := peers[|peers| - 1];
      assert peers == init + [last];
      Select(init, alive, want) + (if alive(last) == want then [last] else [])
  }

  /** Selection keeps a sub-multiset of the input, all of the wanted liveness. */
  lemma {:induction false} SelectBounds(peers: seq<string>, alive: string -> bool, want: bool)
    ensures multiset(Select(peers, alive, want)) <= multiset(peers)
    ensures forall k :: 0 <= k < |Select(peers, alive, want)| ==> alive(Select(peers, alive, want)[k]) == want
  {
    if |peers| > 0 {
      var init := peers[..|peers| - 1];
      var last := peers[|peers| - 1];
      assert peers == init + [last];
      SelectBounds(init, alive, want);
    }
  }

  /** When reachability is a property of the address, the probe loop is a
      filter on liveness. */
  lemma {:induction false} ProbeLoopSelects(net: Discovery.Network, addrs: seq<string>, alive: string -> bool, n: nat)
    requires n <= |addrs|
    requires forall i :: 0 <= i < |addrs| ==> Discovery.Reachable(net, addrs, i) == alive(addrs[i])
    ensures Discovery.ProbeLoop(net, addrs, n).reachable == Select(addrs[..n], alive, true)
    ensures Discovery.ProbeLoop(net, addrs, n).unreachable == Select(addrs[..n], alive, false)
  {
    if n > 0 {
      ProbeLoopSelects(net, addrs, alive, n - 1);
      Discovery.ProbeLoopStep(net, addrs, n);
      assert addrs[..n][..n - 1] == addrs[..n - 1];
    }
  }

  /** Deleting the dead entries of a list one first-match at a time leaves
      its live entries in their original order. */
  lemma {:induction false} RemoveDeadLeavesLive(peers: seq<string>, alive: string -> bool)
    ensures RemoveEach(peers, Select(peers, alive, false)) == Select(peers, alive, true)
  {
    if |peers| > 0 {
      var init := peers[..|peers| - 1];
      var last := peers[|peers| - 1];
      assert peers == init + [last];
      var dead := Select(init, alive, false);
      var live := Select(init, alive, true);
      RemoveDeadLeavesLive(init, alive);
      SelectBounds(init, alive, false);
      SelectBounds(init, alive, true);
      RemoveEachBeforeAppended(init, dead, last);
      assert RemoveEach(peers, dead) == live + [last];
      if alive(last) {
        assert Select(peers, alive, false) == dead;
        assert Select(peers, alive, true) == live + [last];
      } else {
        assert Select(peers, alive, false) == dead + [last];
        assert Select(peers, alive, true) == live;
        RemoveEachConcat(peers, dead, [last]);
        assert RemoveEach(live + [last], [last]) == Chaincode.RemoveFirst(live + [last], last);
        assert last !in live;
        Chaincode.RemoveFirstAfterAppend(live, last);
      }
    }
  }

  /** A successful tick whose probes depend only on the address (every copy
      of an address fares alike), applied to the list it fetched, leaves
      exactly the reachable entries in fetch order. */
  lemma TickPrunesToReachable(ws: Chaincode.WorldState, addrs: seq<string>, net: Discovery.Network,
                              alive: string -> bool, removeOk: nat -> bool)
    requires Chaincode.GetBootstrapPeers(ws) == Ok(addrs)
    requires forall i :: 0 <= i < |addrs| ==> Discovery.Reachable(net, addrs, i) == alive(addrs[i])
    ensures var t := Discovery.Reconcile(Some(addrs), net, true, removeOk);
            Chaincode.GetBootstrapPeers(ApplyRemovals(ws, Discovery.RemovedAddresses(t.trace))) == Ok(t.reachable)
  {
    var t := Discovery.Reconcile(Some(addrs), net, true, removeOk);
    Discovery.RemovalsMatchUnreachable(Some(addrs), net, true, removeOk);
    ProbeLoopSelects(net, addrs, alive, |addrs|);
    assert addrs[..|addrs|] == addrs;
    ApplyRemovalsOnList(ws, t.unreachable);
    RemoveDeadLeavesLive(addrs, alive);
  }

  /** On a duplicate-free list, the form the registry keeps, a successful
      tick leaves exactly the entries that connected, in their stored order. */
  lemma TickPrunesDuplicateFreeToReachable(ws: Chaincode.WorldState, addrs: seq<string>, net: Discovery.Network,
                                           removeOk: nat -> bool)
    requires Chaincode.GetBootstrapPeers(ws) == Ok(addrs)
    requires Chaincode.NoDuplicates(addrs)
    ensures var t := Discovery.Reconcile(Some(addrs), net, true, removeOk);
            Chaincode.GetBootstrapPeers(ApplyRemovals(ws, Discovery.RemovedAddresses(t.trace))) == Ok(t.reachable)
  {
    var alive := (a: string) => exists j :: 0 <= j < |addrs| && addrs[j] == a && Discovery.Reachable(net, addrs, j);
    forall i | 0 <= i < |addrs|
      ensures Discovery.Reachable(net, addrs, i) == alive(addrs[i])
    {
      if alive(addrs[i]) {
        var j :| 0 <= j < |addrs| && addrs[j] == addrs[i] && Discovery.Reachable(net, addrs, j);
        assert j == i;
      }
    }
    TickPrunesToReachable(ws, addrs, net, alive, removeOk);
  }

  /** When no stored address carries a peer ID, as with addresses taken from
      the host's own listen list, a successful tick empties the list. */
  lemma TickWithoutPeerIdsEmptiesList(ws: Chaincode.WorldState, addrs: seq<string>, net: Discovery.Network,
                                      removeOk: nat -> bool)
    requires Chaincode.GetBootstrapPeers(ws) == Ok(addrs)
    requires forall i :: 0 <= i < |addrs| ==> !net.hasPeerId(addrs[i])
    ensures var t := Discovery.Reconcile(Some(addrs), net, true, removeOk);
            Chaincode.GetBootstrapPeers(ApplyRemovals(ws, Discovery.RemovedAddresses(t.trace))) == Ok([])
  {
    var t := Discovery.Reconcile(Some(addrs), net, true, removeOk);
    assert t.reachable == Discovery.ProbeLoop(net, addrs, |addrs|).reachable;
    if |t.reachable| > 0 {
      Discovery.ReachableMeansConnected(net, addrs, |addrs|, t.reachable[0]);
      assert false;
    }
    TickPrunesToReachableMultiset(ws, addrs, net, removeOk);
    var after := Chaincode.GetBootstrapPeers(ApplyRemovals(ws, Discovery.RemovedAddresses(t.trace)));
    assert multiset(after.value) == multiset{};
  }

  /** Whatever the probes, a successful tick leaves the reachable entries
      with their multiplicities (their order may change: see
      `FlakyDuplicateReorders`). */
  lemma TickPrunesToReachableMultiset(ws: Chaincode.WorldState, addrs: seq<string>, net: Discovery.Network,
                                      removeOk: nat -> bool)
    requires Chaincode.GetBootstrapPeers(ws) == Ok(addrs)
    ensures var t := Discovery.Reconcile(Some(addrs), net, true, removeOk);
            var after := Chaincode.GetBootstrapPeers(ApplyRemovals(ws, Discovery.RemovedAddresses(t.trace)));
            after.Ok? && multiset(after.value) == multiset(t.reachable)
  {
    var t := Discovery.Reconcile(Some(addrs), net, true, removeOk);
    var p := Discovery.ProbeLoop(net, addrs, |addrs|);
    assert t.reachable == p.reachable && t.unreachable == p.unreachable;
    Discovery.RemovalsMatchUnreachable(Some(addrs), net, true, removeOk);
    Discovery.ProbeLoopPartition(net, addrs, |addrs|);
    assert addrs[..|addrs|] == addrs;
    ApplyRemovalsOnList(ws, t.unreachable);
    RemoveEachMultiset(addrs, t.unreachable);
    SumMinusPart(multiset(t.reachable), multiset(t.unreachable));
  }

  lemma SumMinusPart(r: multiset<string>, u: multiset<string>)
    ensures (r + u) - u == r
  {
    forall x ensures ((r + u) - u)[x] == r[x] {
    }
  }

  /** A tick whose fetch or bootstrap failed leaves the ledger untouched. */
  lemma FailedTickLeavesLedger(ws: Chaincode.WorldState, fetched: Option<seq<string>>, net: Discovery.Network,
                               bootstrapOk: bool, removeOk: nat -> bool)
    requires fetched.None? || !bootstrapOk
    ensures var t := Discovery.Reconcile(fetched, net, bootstrapOk, removeOk);
            ApplyRemovals(ws, Discovery.RemovedAddresses(t.trace)) == ws
  {
    Discovery.RemovalsMatchUnreachable(fetched, net, bootstrapOk, removeOk);
  }

  /** With a position-dependent probe the list can come back reordered: of
      `a, b, a`, the second `a` fails to connect, the tick removes the first
      match of `a`, and the ledger holds `b, a` where the reachable list is
      `a, b`. */
  lemma FlakyDuplicateReorders(removeOk: nat -> bool)
    ensures var addrs := ["a", "b", "a"];
            var net := Discovery.Network(x => true, x => true, i => i != 2);
            var ws := map[Chaincode.BootstrapPeersKey := Chaincode.PeerListEntry(addrs)];
            var t := Discovery.Reconcile(Some(addrs), net, true, removeOk);
            && t.reachable == ["a", "b"]
            && t.unreachable == ["a"]
            && Chaincode.GetBootstrapPeers(ApplyRemovals(ws, Discovery.RemovedAddresses(t.trace))) == Ok(["b", "a"])
  {
    var addrs := ["a", "b", "a"];
    var net := Discovery.Network(x => true, x => true, i => i != 2);
    var ws := map[Chaincode.BootstrapPeersKey := Chaincode.PeerListEntry(addrs)];
    assert Discovery.ProbeLoop(net, addrs, 1) == Discovery.Probed(["a"], [], [Discovery.ConnectPeer("a")]) by {
      assert Discovery.ProbeAt(net, addrs, 0) == Discovery.Connected;
    }
    assert Discovery.ProbeLoop(net, addrs, 2).reachable == ["a", "b"]
        && Discovery.ProbeLoop(net, addrs, 2).unreachable == [] by {
      assert Discovery.ProbeAt(net, addrs, 1) == Discovery.Connected;
    }
    var p := Discovery.ProbeLoop(net, addrs, 3);
    assert p.reachable == ["a", "b"] && p.unreachable == ["a"] by {
      assert Discovery.ProbeAt(net, addrs, 2) == Discovery.ConnectFailed;
    }
    var t := Discovery.Reconcile(Some(addrs), net, true, removeOk);
    assert t.reachable == p.reachable && t.unreachable == p.unreachable;
    Discovery.RemovalsMatchUnreachable(Some(addrs), net, true, removeOk);
    assert Discovery.RemovedAddresses(t.trace) == ["a"];
    ApplyRemovalsOnList(ws, ["a"]);
    assert Chaincode.RemoveFirst(addrs, "a") == ["b", "a"];
  }
}

=== FILE: text.dfy ===
/** Go's `strings.Split` with a one-character separator, and its inverse
    `strings.Join`, over `string` = `seq<char>`. */
module Text {

  /** Number of occurrences of `c` in `s`. */
  function Count(s: string, c: char): nat
  {
    if |s| == 0 then 0 else (if s[0] == c then 1 else 0) + Count(s[1..], c)
  }

  /** Every occurrence of `sep` ends a piece; nothing is trimmed and empty
      pieces (leading, trailing or between adjacent separators) are kept.
      The empty string splits into one empty piece, as in Go. */
  function Split(s: string, sep: char): (parts: seq<string>)
    ensures |parts| == Count(s, sep) + 1
    ensures forall i :: 0 <= i < |parts| ==> sep !in parts[i]
  {
    if |s| == 0 then [""]
    else
      var rest := Split(s[1..], sep);
      if s[0] == sep then [""] + rest
      else [[s[0]] + rest[0]] + rest[1..]
  }

  /** Concatenation of `parts` with `sep` between consecutive pieces. */
  function Join(parts: seq<string>, sep: char): string
  {
    if |parts| == 0 then ""
    else if |parts| == 1 then parts[0]
    else parts[0] + [sep] + Join(parts[1..], sep)
  }

  /** Joining the pieces of a split gives back the input. */
  lemma {:induction false} JoinSplit(s: string, sep: char)
    ensures Join(Split(s, sep), sep) == s
  {
    if |s| > 0 {
      var rest := Split(s[1..], sep);
      JoinSplit(s[1..], sep);
      if s[0] == sep {
        calc {
          Join(Split(s, sep), sep);
          Join([""] + rest, sep);
          { assert ([""] + rest)[1..] == rest; }
          "" + [sep] + Join(rest, sep);
          [s[0]] + s[1..];
        }
      } else if |rest| == 1 {
        assert Join(rest, sep) == rest[0];
      } else {
        var parts := [[s[0]] + rest[0]] + rest[1..];
        assert parts[1..] == rest[1..];
        assert Join(rest, sep) == rest[0] + [sep] + Join(rest[1..], sep);
        assert Join(parts, sep) == [s[0]] + rest[0] + [sep] + Join(rest[1..], sep);
      }
    }
  }

  /** Splitting a piece free of `sep` followed by `sep` peels that piece off. */
  lemma {:induction false} SplitFirstPiece(p: string, sep: char, tail: string)
    requires sep !in p
    ensures Split(p + [sep] + tail, sep) == [p] + Split(tail, sep)
  {
    if |p| == 0 {
      assert p + [sep] + tail == [sep] + tail;
      assert ([sep] + tail)[1..] == tail;
    } else {
      var s := p + [sep] + tail;
      assert s[0] == p[0];
      assert s[1..] == p[1..] + [sep] + tail;
      SplitFirstPiece(p[1..], sep, tail);
      assert [p[0]] + p[1..] == p;
    }
  }

  /** Splitting a piece free of `sep` gives that piece alone. */
  lemma {:induction false} SplitSinglePiece(p: string, sep: char)
    requires sep !in p
    ensures Split(p, sep) == [p]
  {
    if |p| > 0 {
      SplitSinglePiece(p[1..], sep);
      assert [p[0]] + p[1..] == p;
    }
  }

  /** The other direction of the round trip: pieces free of the separator are
      recovered exactly by splitting their join. */
  lemma {:induction false} SplitJoin(parts: seq<string>, sep: char)
    requires |parts| >= 1
    requires forall i :: 0 <= i < |parts| ==> sep !in parts[i]
    ensures Split(Join(parts, sep), sep) == parts
  {
    if |parts| == 1 {
      SplitSinglePiece(parts[0], sep);
    } else {
      SplitJoin(parts[1..], sep);
      SplitFirstPiece(parts[0], sep, Join(parts[1..], sep));
      assert [parts[0]] + parts[1..] == parts;
    }
  }
}
